=== FILE: README.md ===
# SdExplore in Dafny

A model of the core of the SIKTEC `SdExplore` Arduino library, written in Dafny. The library keeps a
fixed-capacity index of the files in the SD card's working directory whose names end with a given
suffix. Each file is identified by its FAT directory position (`dirIndex`). The library can look a
file's name up again by its place in that index, and can fill a caller's buffer with the names
around a place, which is how menus page through the files.

The model has six modules:

- `CTypes`: C integer widths, C strings and `memcpy`.
  - A C string is modelled by its content (`CStr`, characters other than NUL).
  - A byte buffer is a `seq<char>`.
  - `HoldsCStr` says that a buffer holds a given C string, terminated within a given width.
- `Options`: the `Option` type.
- `FatFile`: the part of the SdFat directory handle the library uses.
  - the entries `openNext` yields after `rewind`
  - `open(dir, dirIndex)`
  - `getName(buf, size)`
  - removal of an entry, which makes its position fail to reopen
- `SdExplore`: the class state (`Explorer`), the constructor, `fileExtensionIs`, `scanFiles` and
  `getFullFileNameByIndex`.
- `AroundCurrent`: `getFilesAroundCurrent`, modelled at two levels.
  - `Window` is a function over names.
  - `GetFilesAroundCurrent` is a method that copies bytes into the caller's buffer. When neither
    `rows` nor `loop_index` wraps, it is proved to leave the last row holding what `Window` says,
    and every row when rows do not overlap (`bufferSize >= maxlength`).
- `Scenario`: a worked example. The directory holds `a.txt b.jpg c.txt d.txt e.txt`.
  It is scanned for `.txt` with capacity 3, and windows are taken over the result.

The working directory is a `Directory` value passed to each operation. A card that changed between
two calls is therefore a different value.

The model follows the code where the header's comments say something else:

- `bufferSize` is the distance between rows (`menunames + bufferSize * i`), not the number of rows
  (SIKTEC_SdExplore.h:167).
- The range check on `getFullFileNameByIndex` is against `loadedFiles`, not `defineMaxFiles`
  (SIKTEC_SdExplore.h:153).

The scan tests the extension on the name after `getName` has cut it to the scan's name buffer
(SIKTEC_SdExplore.cpp:95-96), so a long name can lose its extension and be skipped.

A window runs over logical indices `index - shift` to `index + shift`, and indices outside the
index give empty rows. So the radius-2 window around index 0 over three files `a, c, d` is
`["", "", a, c, d]` (`Scenario.WindowExamples`).

## Model

| member | source | states |
|---|---|---|
| SdExplore.Create | SIKTEC_SdExplore.cpp:21-31 | the constructor records both capacities as given, and nothing is indexed yet (`loadedFiles` is 0, within capacity) |
| SdExplore.DefaultCapacities | SIKTEC_SdExplore.h:91-95 | built without arguments, the explorer indexes up to 50 files with 50-byte names; overriding only the first capacity keeps the 50-byte default |
| SdExplore.FileExtensionIs | SIKTEC_SdExplore.cpp:116-120 | a match needs an extension no longer than the name |
| SdExplore.FileExtensionIsSuffix | SIKTEC_SdExplore.cpp:116-120 | the test holds exactly when some tail of the name equals the extension; the empty extension matches every name |
| SdExplore.FileExtensionExamples | SIKTEC_SdExplore.h:136-144 | examples of "any ending substring": the comparison is case-sensitive, a suffix without a dot counts, an extension longer than the name never matches, and "" matches |
| SdExplore.FileExtensionIsAsWritten | SIKTEC_SdExplore.cpp:117-119 | with both lengths held in `uint8_t`, the test accepts only names that really end with the extension, and agrees with the intended test on names shorter than 256 bytes |
| SdExplore.FileExtensionWrapCounterexample | SIKTEC_SdExplore.cpp:117-119 | a 260-byte name ending in ".txt" ends with ".txt" but is rejected as written |
| SdExplore.Indexed | SIKTEC_SdExplore.cpp:94-96 | only regular, non-hidden files qualify; an extension at least as long as the name buffer never matches, because the name is cut to the buffer first; a name that fits qualifies exactly when it ends with the extension |
| SdExplore.ScanLoop | SIKTEC_SdExplore.cpp:93-108 | the loop only appends to `files`, so the positions already stored are a prefix of the result, and it never stores more than `maxFiles` positions; its value is given by SdExplore.ScanLoopTakesFirstMatches |
| SdExplore.IndexedEntriesMembers | SIKTEC_SdExplore.cpp:93-97 | an entry is indexed exactly when it is in the directory, is a regular, non-hidden file, and its name (read into the scan's buffer) ends with the extension |
| SdExplore.ScanLoopTakesFirstMatches | SIKTEC_SdExplore.cpp:93-108 | the scan loop appends the positions of the first qualifying entries in directory order, as many as the remaining capacity allows |
| SdExplore.ScanFiles | SIKTEC_SdExplore.cpp:81-111 | the index is reset; a directory that is not open indexes nothing; otherwise `files` holds the positions of the first `min(M, defineMaxFiles)` qualifying entries, where M is the number of qualifying entries; the returned count equals `loadedFiles`, never exceeds the capacity, and the capacities are unchanged |
| SdExplore.RescanIsIdempotent | SIKTEC_SdExplore.cpp:82-92 | the scan starts from an empty index, so its result does not depend on what was indexed before, and scanning an unchanged directory twice gives what scanning once gives |
| SdExplore.EmptyExtensionIndexesAllFiles | SIKTEC_SdExplore.h:128-131 | with an empty extension every regular, non-hidden file qualifies, in directory order |
| SdExplore.ScanStoresDistinctPositions | SIKTEC_SdExplore.cpp:97 | when no two entries share a position, the index never stores one position twice |
| SdExplore.Reopen | SIKTEC_SdExplore.cpp:125-130 | reopening a stored position yields the entry's name cut to the buffer, and a failed open yields the empty name whatever the buffer size |
| SdExplore.GetFullFileNameByIndex | SIKTEC_SdExplore.cpp:122-132 | an index outside `[0, loadedFiles)` leaves the buffer as it was; an index inside it whose reopen fails leaves the empty name; an index inside it leaves a name shorter than `defineMaxFileName` |
| SdExplore.ResolveAfterScan | SIKTEC_SdExplore.h:146-156 | after a scan of an unchanged directory, looking up place `i` reads the `i`-th qualifying entry's name (cut to the buffer); that name ends with the extension and is not empty when the entry's name is not |
| SdExplore.ResolveAfterRemoval | SIKTEC_SdExplore.cpp:125-130 | once the file at place `i` is removed from the card, looking `i` up gives the empty name, and places holding other positions read what they read before |
| FatFile.GetName | SIKTEC_SdExplore.cpp:95 | the name read into a buffer of `size` bytes is the longest prefix of the entry's name that leaves room for the NUL, and is the whole name when it fits |
| FatFile.GetNameInto | SIKTEC_SdExplore.cpp:144 | at byte level the buffer then holds that name as a C string, and the bytes past its NUL are untouched |
| FatFile.Open | SIKTEC_SdExplore.cpp:125 | reopening a position succeeds exactly when the directory is open and an entry sits at that position, and it returns such an entry |
| FatFile.OpenFindsEntry | SIKTEC_SdExplore.cpp:143 | when positions are unique, reopening an entry's position yields that entry |
| FatFile.RemoveOnlyAffectsItsPosition | SIKTEC_SdExplore.cpp:143-148 | after an entry is removed its position fails to reopen, and every other position reopens as before |
| CTypes.Memcpy | SIKTEC_SdExplore.cpp:152 | `memcpy` of a source at an offset puts the source's bytes there and changes no other byte |
| CTypes.ToInt8 | SIKTEC_SdExplore.cpp:137 | storing into `int8_t` gives the value in [-128, 128) that is congruent to the input modulo 256, so any value already in that range is kept |
| CTypes.ToUInt8 | SIKTEC_SdExplore.cpp:136 | storing into `uint8_t` gives the value in [0, 256) that is congruent to the input modulo 256, so any value already in that range is kept |
| CTypes.HoldsCStrUnique | SIKTEC_SdExplore.cpp:152-153 | a row holds at most one C string: the first NUL decides it |
| AroundCurrent.RowName | SIKTEC_SdExplore.cpp:142-151 | a row is shorter than `maxlength`, and it is empty for a logical index outside `[0, loadedFiles)` |
| AroundCurrent.Window | SIKTEC_SdExplore.cpp:134-155 | with nothing indexed there are no rows; otherwise there are `2*shift+1` rows; row `i` is the name at logical index `index - shift + i`, and it is empty when that index has no file |
| AroundCurrent.WindowRowIsLookup | SIKTEC_SdExplore.cpp:142-148 | each in-range row reads what `getFullFileNameByIndex` reads for the same logical index, for any `index` and `shift` (including windows where the source's `loop_index` would wrap), as long as that logical index fits `int16_t` |
| AroundCurrent.WindowAfterScan | SIKTEC_SdExplore.h:158-169 | after a scan of an unchanged directory, an in-range row holds the corresponding qualifying entry's name, cut to the row |
| AroundCurrent.WindowAsWritten | SIKTEC_SdExplore.cpp:136-141 | the number of rows as written is `(2*shift+1) mod 256`, and with nothing indexed there are none |
| AroundCurrent.WindowAsWrittenAgrees | SIKTEC_SdExplore.cpp:136-141 | when neither `rows` nor `loop_index` wraps, the rows as written are the intended ones |
| AroundCurrent.RowsWrapCounterexample | SIKTEC_SdExplore.cpp:136 | with `shift` 128 and any file indexed, one row is written as the code stands, against 257 intended |
| AroundCurrent.RowStartIsProduct | SIKTEC_SdExplore.cpp:152 | row `i` starts at offset `bufferSize * i` |
| AroundCurrent.WindowWrapCounterexample | SIKTEC_SdExplore.cpp:137-142 | with 202 or more files indexed, the three rows around index 200 are all empty as written, while the intended centre row holds the name of the file at place 200, cut to the row |
| AroundCurrent.ReadRow | SIKTEC_SdExplore.cpp:142-151 | after one row's lookup, the name buffer holds that row's name as a C string, and the bytes past its NUL keep their values |
| AroundCurrent.CopyRow | SIKTEC_SdExplore.cpp:152 | copying the whole name buffer to a row's offset leaves the row holding the buffer's C string, and no other byte changes |
| AroundCurrent.CopyRows | SIKTEC_SdExplore.cpp:141-154 | after the row loop, the last row holds its name; when rows do not overlap, every row holds its name; no byte outside the rows changes |
| AroundCurrent.GetFilesAroundCurrent | SIKTEC_SdExplore.cpp:134-155 | `shift` defaults to 1, as declared at SIKTEC_SdExplore.h:172; with nothing indexed the caller's buffer is untouched; otherwise each row `i` at offset `bufferSize*i` holds the `Window` name as a C string terminated within `maxlength` bytes (every row when `bufferSize >= maxlength`, the last row always), and no byte outside the rows changes |
| Scenario.ExampleMatches | SIKTEC_SdExplore.cpp:93-106 | over `a.txt b.jpg c.txt d.txt e.txt` the ".txt" filter keeps everything except b.jpg, in order |
| Scenario.ScanExample | SIKTEC_SdExplore.cpp:81-111 | a capacity-3 scan for ".txt" returns 3 and indexes the positions of a.txt, c.txt and d.txt; e.txt is cut off by the capacity |
| Scenario.WindowExamples | SIKTEC_SdExplore.h:158-169 | over that index: radius 1 around place 1 gives `[a, c, d]`; radius 2 around place 0 gives `["", "", a, c, d]`; radius 2 around place 1 gives `["", a, c, d, ""]` |

## Left out

- `initialize`, `setRoot` and `listRootDirectory`: these are SD-card I/O through SdFat. The directory `setRoot` selects is the `Directory` argument of each operation.
- The destructor (`delete[] this->files`) is left out, because the model has no heap: `files` is a value.
- Serial output (`SDEXPLORE_USE_SERIAL`) is left out; it has no effect on the results.
- The scan calls `openNext` before it tests the capacity. When the index fills up, the loop therefore ends with one entry opened and never closed. Handles and their leak are not modelled.
- The `memset` calls on `files` (`sizeof(maxFiles)` bytes in the constructor, `defineMaxFiles` bytes in the scan) are left out. They only touch slots past `loadedFiles`, which no operation reads. `Explorer.files` holds just the valid prefix of the array.
- `mainDirectory` is uninitialised until `setRoot` succeeds. The model always has a directory value.
- The scan's name buffer is `memset` to spaces before use. This is left out because every name is read into it with `getName` before the extension is compared.
- SdFat internals are not modelled: long and short file names, the FAT layout, and `getName`'s return value. An entry is its name, two flags and its position. SdFat is not part of this model, so `getName` on a name longer than the buffer is modelled as truncation to the first `size - 1` characters followed by the terminator; that is a chosen abstraction, not the library's documented behaviour.
- SdExplore.ScanFiles: requires `defineMaxFileName >= 1` only when the directory is open; a closed directory with `defineMaxFileName` 0 is modelled and indexes nothing. The requires still excludes an open directory with `defineMaxFileName` 0, where `nameBuff` at SIKTEC_SdExplore.cpp:89 has zero length. Such a scan is well defined in practice when `getName` is never reached: when `defineMaxFiles` is 0, or when no regular, non-hidden entry is met. Those inputs are left out with the rest.
- SdExplore.GetFullFileNameByIndex: requires `defineMaxFileName >= 1` only for an index inside `[0, loadedFiles)` whose reopen succeeds, that is, for `getName(nameBuff, 0)`, which lies outside the truncation model of `getName`. An index outside the range, and a failed reopen, are modelled with `defineMaxFileName` 0.
- SdExplore.Indexed: uses the intended suffix test `FileExtensionIs`, not the `uint8_t` one. The two differ only on names of 256 bytes or more, which needs a name buffer of more than 256 bytes (the default is 50).
- AroundCurrent.GetFilesAroundCurrent: requires `maxlength >= 1`. With `maxlength` 0 the source's `nameBuff[maxlength - 1]` lies outside the buffer. The requires also excludes `maxlength` 0 when nothing is indexed, where the source returns before touching anything.
- AroundCurrent.GetFilesAroundCurrent: requires that neither `rows` nor `loop_index` wraps (`NoWrap`). The wrapping behaviour is modelled on names only, by `WindowAsWritten`.
- AroundCurrent.GetFilesAroundCurrent: requires the caller's buffer to reach the end of the last row. The source writes past the end otherwise.
- AroundCurrent.GetFilesAroundCurrent: when `bufferSize < maxlength`, rows overlap. Only the last row's name and the untouched bytes outside the rows are stated.
- AroundCurrent.CopyRows: states each row as a C string. It does not state the leftover bytes after a row's NUL, which are whatever the name buffer held.

## Findings

| source | as written | input that shows it | evidently intended | confidence | as-written member | corrected member |
|---|---|---|---|---|---|---|
| SIKTEC_SdExplore.cpp:117-119 | `name_len` and `ext_len` are `uint8_t`, so lengths are taken modulo 256 | the name `"a"` repeated 256 times followed by `".txt"`, with extension `".txt"`: `name_len` is 4, so the whole name is compared with `".txt"` and the test is false | true for every name that ends with the extension | not executed; reachable by any direct call with a name of 256 bytes or more, and by the scan only with a name buffer over 256 bytes | SdExplore.FileExtensionIsAsWritten, SdExplore.FileExtensionWrapCounterexample | SdExplore.FileExtensionIs, SdExplore.FileExtensionIsSuffix |
| SIKTEC_SdExplore.cpp:137-142 | `loop_index` is `int8_t`, so `index - shift` above 127 wraps negative | 202 or more files indexed, `index` 200, `shift` 1: `loop_index` starts at -57 and all three rows are written empty | rows for logical indices 199, 200 and 201 | not executed; needs a capacity above 128 (the default is 50) | AroundCurrent.WindowAsWritten, AroundCurrent.WindowWrapCounterexample | AroundCurrent.Window, AroundCurrent.WindowRowIsLookup |
| SIKTEC_SdExplore.cpp:136 | `rows` is `uint8_t`, so `shift * 2 + 1` is taken modulo 256 | any file indexed, `shift` 128: `rows` is 1, so one row is written | `2*shift+1` rows, 257 here | not executed; reachable at the default capacity | AroundCurrent.WindowAsWritten, AroundCurrent.RowsWrapCounterexample | AroundCurrent.Window |

=== FILE: around_current.dfy ===
/**
  `getFilesAroundCurrent`: the names of the files around a logical index,
  written as fixed-stride rows into a caller's buffer, for paging menus.

  `Window` states what each row holds; `GetFilesAroundCurrent` performs the
  byte-level copies into the caller's buffer. When neither `rows` nor
  `loop_index` wraps, it is proved to leave the last row holding what
  `Window` says, and every row when rows do not overlap (`bufferSize >=
  maxlength`).
 */
module AroundCurrent {
  import opened CTypes
  import opened Options
  import opened FatFile
  import opened SdExplore

  /** The number of rows for a given `shift`: `shift` before, the current one, `shift` after. */
  function Rows(shift: nat): nat
  {
    2 * shift + 1
  }

  /**
    The arguments for which the source's `uint8_t rows` and `int8_t
    loop_index` hold their mathematical values on every iteration.
   */
  predicate NoWrap(index: u8, shift: nat)
  {
    Rows(shift) < 0x100 && -0x80 <= index - shift && index + shift < 0x80
  }

  /** The name a row holds for logical index `k`: empty outside `[0, loadedFiles)` or when reopening fails. */
  function RowName(ex: Explorer, d: Directory, k: int, maxlength: nat): (name: CStr)
    requires maxlength >= 1
    ensures |name| < maxlength
    ensures !(0 <= k < ex.LoadedFiles()) ==> name == []
  {
    if k < ex.LoadedFiles() && k >= 0 then Reopen(ex, d, k, maxlength) else []
  }

  /**
    The rows `getFilesAroundCurrent(index, ..., maxlength, shift)` writes,
    as C strings: none when nothing is indexed, otherwise `2*shift+1` rows,
    row `i` standing for logical index `index - shift + i`.
   */
  function Window(ex: Explorer, d: Directory, index: u8, shift: nat, maxlength: nat): (rows: seq<CStr>)
    requires maxlength >= 1
    ensures ex.LoadedFiles() < 1 ==> rows == []
    ensures ex.LoadedFiles() >= 1 ==> |rows| == Rows(shift)
    ensures forall i :: 0 <= i < |rows| ==> |rows[i]| < maxlength
    ensures forall i :: 0 <= i < |rows| && !(0 <= index - shift + i < ex.LoadedFiles()) ==> rows[i] == []
    ensures forall i :: 0 <= i < |rows| ==> rows[i] == RowName(ex, d, index - shift + i, maxlength)
  {
    if ex.LoadedFiles() < 1 then []
    else
      var rows := seq(Rows(shift), i requires 0 <= i < Rows(shift) => RowName(ex, d, index - shift + i, maxlength));
      assert forall i :: 0 <= i < |rows| ==> rows[i] == RowName(ex, d, index - shift + i, maxlength);
      rows
  }

  /**
    Each in-range row reads exactly what `getFullFileNameByIndex` reads for
    that logical index when the rows are as wide as the explorer's name
    buffer; in particular row `shift` is the file at `index` itself.
   */
  lemma WindowRowIsLookup(ex: Explorer, d: Directory, index: u8, shift: nat, nameBuff: CStr, i: nat)
    requires ex.maxFileName >= 1
    requires index - shift + i < 0x8000
    requires i < |Window(ex, d, index, shift, ex.maxFileName)|
    requires 0 <= index - shift + i < ex.LoadedFiles()
    ensures Window(ex, d, index, shift, ex.maxFileName)[i]
            == GetFullFileNameByIndex(ex, d, nameBuff, index - shift + i)
  {
  }

  /**
    After a scan of an unchanged directory, an in-range row holds the name of
    the qualifying entry at that logical index, cut to the row's width.
   */
  lemma WindowAfterScan(ex: Explorer, d: Directory, ext: CStr, index: u8, shift: nat, maxlength: nat, i: nat)
    requires ex.maxFileName >= 1 && maxlength >= 1
    requires UniquePositions(d)
    requires i < |Window(ScanFiles(ex, d, ext).0, d, index, shift, maxlength)|
    requires 0 <= index - shift + i < ScanFiles(ex, d, ext).1
    ensures Window(ScanFiles(ex, d, ext).0, d, index, shift, maxlength)[i]
            == GetName(IndexedEntries(d.entries, ext, ex.maxFileName)[index - shift + i].name, maxlength)
  {
    var e := IndexedEntries(d.entries, ext, ex.maxFileName)[index - shift + i];
    IndexedEntriesMembers(d.entries, ext, ex.maxFileName);
    assert e in d.entries;
    var j :| 0 <= j < |d.entries| && d.entries[j] == e;
    OpenFindsEntry(d, j);
  }

  /**
    The rows as the source computes them: `rows` is a `uint8_t` and
    `loop_index` an `int8_t`, so both are taken modulo 256.
   */
  function WindowAsWritten(ex: Explorer, d: Directory, index: u8, shift: nat, maxlength: nat): (rows: seq<CStr>)
    requires maxlength >= 1
    ensures ex.LoadedFiles() >= 1 ==> |rows| == ToUInt8(Rows(shift)) as int
    ensures ex.LoadedFiles() < 1 ==> rows == []
  {
    if ex.LoadedFiles() < 1 then []
    else
      var n := ToUInt8(Rows(shift)) as int;
      seq(n, i requires 0 <= i < n => RowName(ex, d, ToInt8(index - shift + i), maxlength))
  }

  /** Without wrap-around the rows as written are the intended ones. */
  lemma WindowAsWrittenAgrees(ex: Explorer, d: Directory, index: u8, shift: nat, maxlength: nat)
    requires maxlength >= 1
    requires NoWrap(index, shift)
    ensures WindowAsWritten(ex, d, index, shift, maxlength) == Window(ex, d, index, shift, maxlength)
  {
    var a := WindowAsWritten(ex, d, index, shift, maxlength);
    var w := Window(ex, d, index, shift, maxlength);
    if ex.LoadedFiles() >= 1 {
      assert |a| == |w|;
      forall i | 0 <= i < |a|
        ensures a[i] == w[i]
      {
        assert ToInt8(index - shift + i) == index - shift + i;
      }
    }
  }

  /**
    With 202 or more files indexed, the rows around index 200 are all empty
    as written, because `loop_index` wraps to -57; the intended centre row
    holds the name of the file at index 200.
   */
  lemma WindowWrapCounterexample(ex: Explorer, d: Directory, maxlength: nat)
    requires maxlength >= 2
    requires ex.LoadedFiles() >= 202
    requires Open(d, ex.files[200]).Some? && |Open(d, ex.files[200]).value.name| > 0
    ensures WindowAsWritten(ex, d, 200, 1, maxlength) == [[], [], []]
    ensures Window(ex, d, 200, 1, maxlength)[1] != []
    ensures Window(ex, d, 200, 1, maxlength)[1] == GetName(Open(d, ex.files[200]).value.name, maxlength)
  {
    assert ToInt8(199) == -57;
    assert ToInt8(200) == -56;
    assert ToInt8(201) == -55;
  }

  /**
    With `shift` 128 the source's `uint8_t rows` is 257 modulo 256: a single
    row is written where 257 are meant.
   */
  lemma RowsWrapCounterexample(ex: Explorer, d: Directory, index: u8, maxlength: nat)
    requires maxlength >= 1
    requires ex.LoadedFiles() >= 1
    ensures |WindowAsWritten(ex, d, index, 128, maxlength)| == 1
    ensures |Window(ex, d, index, 128, maxlength)| == 257
  {
    assert ToUInt8(Rows(128)) == 1;
  }

  // ---------------------------------------------------------------------------
  // The byte-level copy into the caller's buffer

  /**
    The offset of row `i` in the caller's buffer, `stride * i`: rows are
    `stride` bytes apart. Written as repeated addition, so that proofs about
    offsets stay linear.
   */
  function RowStart(stride: nat, i: nat): nat
  {
    if i == 0 then 0 else RowStart(stride, i - 1) + stride
  }

  /** Row `i` starts `stride * i` bytes into the buffer. */
  lemma {:induction false} RowStartIsProduct(stride: nat, i: nat)
    ensures RowStart(stride, i) == stride * i
  {
    if i > 0 {
      RowStartIsProduct(stride, i - 1);
    }
  }

  /** Byte `k` lies in one of the first `n` rows of `width` bytes, `stride` bytes apart. */
  ghost predicate InRows(k: int, stride: nat, width: nat, n: nat)
  {
    exists j :: 0 <= j < n && RowStart(stride, j) <= k < RowStart(stride, j) + width
  }

  lemma InRowsStep(k: int, stride: nat, width: nat, n: nat)
    ensures InRows(k, stride, width, n + 1)
            <==> InRows(k, stride, width, n) || RowStart(stride, n) <= k < RowStart(stride, n) + width
  {
    if InRows(k, stride, width, n + 1) {
      var j :| 0 <= j < n + 1 && RowStart(stride, j) <= k < RowStart(stride, j) + width;
      if j < n {
        assert InRows(k, stride, width, n);
      }
    }
  }

  lemma {:induction false} RowStartMonotone(stride: nat, i: nat, j: nat)
    requires i < j
    ensures RowStart(stride, i) + stride <= RowStart(stride, j)
    decreases j
  {
    assert RowStart(stride, j) == RowStart(stride, j - 1) + stride;
    if i < j - 1 {
      RowStartMonotone(stride, i, j - 1);
    }
  }

  lemma RowFits(stride: nat, width: nat, i: nat, last: nat, len: nat)
    requires i <= last
    requires RowStart(stride, last) + width <= len
    ensures RowStart(stride, i) + width <= len
  {
    if i < last {
      RowStartMonotone(stride, i, last);
    }
  }

  /** A C string stored before `off` survives a copy that only touches bytes from `off` on. */
  lemma HoldsCStrKept(before: seq<char>, after: seq<char>, start: nat, width: nat, s: CStr, off: nat)
    requires HoldsCStr(before, start, width, s)
    requires start + width <= off
    requires |after| == |before|
    requires forall k :: 0 <= k < off && k < |before| ==> after[k] == before[k]
    ensures HoldsCStr(after, start, width, s)
  {
    forall k | 0 <= k < |s|
      ensures after[start + k] == s[k]
    {
      assert after[start + k] == before[start + k];
    }
  }

  /**
    One row's lookup into the name buffer: in range, the stored position is
    reopened and its name read with `getName(nameBuff, maxlength)`; out of
    range or on a failed open only the first byte is cleared. Either way the
    buffer then holds the row's name as a C string, and the bytes past its
    terminator are left as they were.
   */
  method ReadRow(ex: Explorer, d: Directory, loopIndex: int, nameBuff: seq<char>) returns (r: seq<char>)
    requires |nameBuff| >= 1
    ensures |r| == |nameBuff|
    ensures HoldsCStr(r, 0, |nameBuff|, RowName(ex, d, loopIndex, |nameBuff|))
    ensures forall k :: |RowName(ex, d, loopIndex, |nameBuff|)| < k < |nameBuff| ==> r[k] == nameBuff[k]
  {
    if loopIndex < ex.LoadedFiles() && loopIndex >= 0 {
      match Open(d, ex.files[loopIndex])
      case Some(candid) =>
        r := GetNameInto(nameBuff, candid.name);
      case None =>
        r := nameBuff[0 := '\0'];
    } else {
      r := nameBuff[0 := '\0'];
    }
  }

  /** `buf` and `orig` differ at most in the `width` bytes from `off`. */
  ghost predicate SameOutside(buf: seq<char>, orig: seq<char>, off: nat, width: nat)
  {
    |buf| == |orig| && forall k :: 0 <= k < |buf| && !(off <= k < off + width) ==> buf[k] == orig[k]
  }

  /**
    The copy of one row: all of the name buffer goes to offset `off`, so the
    row then holds the buffer's C string and nothing else changes.
   */
  method CopyRow(menunames: seq<char>, off: nat, nameBuff: seq<char>, ghost name: CStr)
    returns (out: seq<char>)
    requires HoldsCStr(nameBuff, 0, |nameBuff|, name)
    requires off + |nameBuff| <= |menunames|
    ensures HoldsCStr(out, off, |nameBuff|, name)
    ensures SameOutside(out, menunames, off, |nameBuff|)
  {
    out := Memcpy(menunames, off, nameBuff);
    forall k | 0 <= k < |name|
      ensures out[off + k] == name[k]
    {
      assert out[off + k] == nameBuff[k];
    }
    assert out[off + |name|] == nameBuff[|name|];
  }

  /** The first `n` rows of `buf` hold the names `w[..n]`. */
  ghost predicate RowsHold(buf: seq<char>, stride: nat, width: nat, w: seq<CStr>, n: nat)
  {
    n <= |w| && forall j :: 0 <= j < n ==> HoldsCStr(buf, RowStart(stride, j), width, w[j])
  }

  /** No byte of `buf` outside the first `n` rows differs from `orig`. */
  ghost predicate OnlyRowsChanged(buf: seq<char>, orig: seq<char>, stride: nat, width: nat, n: nat)
  {
    |buf| == |orig| && forall k :: 0 <= k < |buf| && !InRows(k, stride, width, n) ==> buf[k] == orig[k]
  }

  /** Copying row `i`, when rows do not overlap, keeps the rows copied before it. */
  lemma CopyKeepsEarlierRows(prev: seq<char>, out: seq<char>, w: seq<CStr>, stride: nat, width: nat, i: nat)
    requires stride >= width && i < |w|
    requires SameOutside(out, prev, RowStart(stride, i), width)
    requires RowsHold(prev, stride, width, w, i)
    requires HoldsCStr(out, RowStart(stride, i), width, w[i])
    ensures RowsHold(out, stride, width, w, i + 1)
  {
    forall j | 0 <= j < i
      ensures HoldsCStr(out, RowStart(stride, j), width, w[j])
    {
      RowStartMonotone(stride, j, i);
      HoldsCStrKept(prev, out, RowStart(stride, j), width, w[j], RowStart(stride, i));
    }
  }

  /** Copying row `i` changes no byte outside the first `i + 1` rows. */
  lemma CopyStaysInRows(prev: seq<char>, out: seq<char>, menunames: seq<char>, stride: nat, width: nat, i: nat)
    requires SameOutside(out, prev, RowStart(stride, i), width)
    requires OnlyRowsChanged(prev, menunames, stride, width, i)
    ensures OnlyRowsChanged(out, menunames, stride, width, i + 1)
  {
    forall k | 0 <= k < |out| && !InRows(k, stride, width, i + 1)
      ensures out[k] == menunames[k]
    {
      InRowsStep(k, stride, width, i);
    }
  }

  /**
    The row loop: for each `i < n` the name of logical index `first + i`
    (an `int8_t`, so `first + n <= 128`) is read into the name buffer, the
    whole buffer is copied to offset `bufferSize*i`, and the buffer's last
    byte is set to NUL again. Row `i` then holds `w[i]`, the name
    `RowName` gives for that index, unless a later, overlapping row
    overwrote it; the last row always holds its name, and no byte outside
    the rows changes.
   */
  method CopyRows(ex: Explorer, d: Directory, first: int, n: nat, menunames: seq<char>,
                  bufferSize: nat, nameBuff: seq<char>, ghost w: seq<CStr>)
    returns (out: seq<char>)
    requires |nameBuff| >= 1
    requires -0x80 <= first && first + n <= 0x80
    requires n >= 1 ==> RowStart(bufferSize, n - 1) + |nameBuff| <= |menunames|
    requires |w| == n
    requires forall j :: 0 <= j < n ==> w[j] == RowName(ex, d, first + j, |nameBuff|)
    ensures |out| == |menunames|
    ensures n >= 1 ==> HoldsCStr(out, RowStart(bufferSize, n - 1), |nameBuff|, w[n - 1])
    ensures bufferSize >= |nameBuff| ==> RowsHold(out, bufferSize, |nameBuff|, w, n)
    ensures OnlyRowsChanged(out, menunames, bufferSize, |nameBuff|, n)
  {
    var maxlength := |nameBuff|;
    var buff := nameBuff;
    var loopIndex := first;
    out := menunames;
    var i := 0;
    while i < n
      invariant 0 <= i <= n
      invariant i < n ==> loopIndex == first + i
      invariant |buff| == maxlength
      invariant |out| == |menunames|
      invariant bufferSize >= maxlength ==> RowsHold(out, bufferSize, maxlength, w, i)
      invariant i > 0 ==> HoldsCStr(out, RowStart(bufferSize, i - 1), maxlength, w[i - 1])
      invariant OnlyRowsChanged(out, menunames, bufferSize, maxlength, i)
    {
      RowFits(bufferSize, maxlength, i, n - 1, |out|);
      ghost var prev := out;
      buff := ReadRow(ex, d, loopIndex, buff);
      out := CopyRow(out, RowStart(bufferSize, i), buff, w[i]);
      buff := buff[maxlength - 1 := '\0'];
      if bufferSize >= maxlength {
        CopyKeepsEarlierRows(prev, out, w, bufferSize, maxlength, i);
      }
      CopyStaysInRows(prev, out, menunames, bufferSize, maxlength, i);
      i := i + 1;
      loopIndex := ToInt8(loopIndex + 1);
    }
  }

  /**
    `getFilesAroundCurrent(index, menunames, bufferSize, maxlength, shift)`
    on the bytes of `menunames`. When files are indexed, row `i` is copied
    (all `maxlength` bytes of the name buffer) to offset `bufferSize*i`;
    every row then holds its `Window` name as a C string terminated within
    `maxlength` bytes, provided rows do not overlap (`bufferSize >=
    maxlength`); the last row always does. No byte outside the rows changes.
   */
  method GetFilesAroundCurrent(ex: Explorer, d: Directory, index: u8, menunames: seq<char>,
                               bufferSize: nat, maxlength: nat, shift: nat := 1)
    returns (out: seq<char>)
    requires maxlength >= 1
    requires NoWrap(index, shift)
    requires ex.LoadedFiles() >= 1 ==> RowStart(bufferSize, 2 * shift) + maxlength <= |menunames|
    ensures |out| == |menunames|
    ensures ex.LoadedFiles() < 1 ==> out == menunames
    ensures ex.LoadedFiles() >= 1 ==>
              HoldsCStr(out, RowStart(bufferSize, 2 * shift), maxlength,
                        Window(ex, d, index, shift, maxlength)[2 * shift])
    ensures bufferSize >= maxlength ==>
              var w := Window(ex, d, index, shift, maxlength);
              RowsHold(out, bufferSize, maxlength, w, |w|)
    ensures OnlyRowsChanged(out, menunames, bufferSize, maxlength, |Window(ex, d, index, shift, maxlength)|)
  {
    if ex.LoadedFiles() < 1 {
      return menunames;
    }
    ghost var w := Window(ex, d, index, shift, maxlength);
    var rows := ToUInt8(shift * 2 + 1);
    var first := ToInt8(index - shift);
    var nameBuff := [' '] + seq(maxlength - 1, _ => '\0');
    nameBuff := nameBuff[maxlength - 1 := '\0'];
    assert |nameBuff| == maxlength && first == index - shift && rows as nat == |w|;
    out := CopyRows(ex, d, first, rows as nat, menunames, bufferSize, nameBuff, w);
  }
}

=== FILE: ctypes.dfy ===
/**
  The fixed-width C types the library works with, and the content of a
  NUL-terminated C string.
 */
module CTypes {

  type u8 = x: int | 0 <= x < 0x100
  type u16 = x: int | 0 <= x < 0x1_0000
  type i16 = x: int | -0x8000 <= x < 0x8000

  /** A character that may occur inside a C string: anything but the terminator. */
  type NonNul = c: char | c != '\0' witness 'a'

  /** The content of a C string, that is, the characters before its terminating NUL. */
  type CStr = seq<NonNul>

  /** Conversion of an integer to `uint8_t`, keeping it modulo 256. */
  function ToUInt8(x: int): (r: u8)
    ensures 0 <= x < 0x100 ==> r == x
    ensures (x - r) % 0x100 == 0
  {
    x % 0x100
  }

  /** Conversion of an integer to `int8_t`, keeping it modulo 256 (two's complement). */
  function ToInt8(x: int): (r: int)
    ensures -0x80 <= r < 0x80
    ensures -0x80 <= x < 0x80 ==> r == x
    ensures (x - r) % 0x100 == 0
  {
    var m := x % 0x100;
    if m < 0x80 then m else m - 0x100
  }

  /**
    `HoldsCStr(buf, start, width, s)`: reading `buf` as a C string from offset
    `start` yields exactly `s`, and its NUL lies within the `width` bytes there.
   */
  ghost predicate HoldsCStr(buf: seq<char>, start: nat, width: nat, s: CStr)
  {
    && start + width <= |buf|
    && |s| < width
    && (forall k :: 0 <= k < |s| ==> buf[start + k] == s[k])
    && buf[start + |s|] == '\0'
  }

  /** No byte of the string's content is the terminator. */
  lemma NoNulInside(buf: seq<char>, start: nat, width: nat, s: CStr, k: nat)
    requires HoldsCStr(buf, start, width, s)
    requires k < |s|
    ensures buf[start + k] != '\0'
  {
    assert buf[start + k] == s[k];
  }

  /** The C string stored at `start` is unique: it ends at the first NUL. */
  lemma {:induction false} HoldsCStrUnique(buf: seq<char>, start: nat, width: nat, s: CStr, t: CStr)
    requires HoldsCStr(buf, start, width, s)
    requires HoldsCStr(buf, start, width, t)
    ensures s == t
  {
    if |s| < |t| {
      NoNulInside(buf, start, width, t, |s|);
      assert false;
    } else if |t| < |s| {
      NoNulInside(buf, start, width, s, |t|);
      assert false;
    } else {
      assert forall k :: 0 <= k < |s| ==> s[k] == buf[start + k] == t[k];
    }
  }

  /** `memcpy(buf + off, src, |src|)`: bytes outside the destination range keep their values. */
  function Memcpy(buf: seq<char>, off: nat, src: seq<char>): (r: seq<char>)
    requires off + |src| <= |buf|
    ensures |r| == |buf|
    ensures forall k :: 0 <= k < |src| ==> r[off + k] == src[k]
    ensures forall k :: 0 <= k < |buf| && !(off <= k < off + |src|) ==> r[k] == buf[k]
  {
    buf[..off] + src + buf[off + |src|..]
  }
}

=== FILE: fat_file.dfy ===
/**
  The SdFat directory handle, reduced to what the explorer consumes: the
  entries `openNext` yields after a rewind, reopening an entry by its
  position (`open(dir, dirIndex)`), and reading a name into a buffer
  (`getName`).
 */
module FatFile {
  import opened CTypes
  import opened Options

  /** One directory entry as `openNext` or `open` presents it. */
  datatype Entry = Entry(name: CStr, isFile: bool, isHidden: bool, dirIndex: u16)

  /**
    The working directory: whether its handle is open, and the entries it
    yields in directory order after `rewind`.
   */
  datatype Directory = Directory(isOpen: bool, entries: seq<Entry>)

  /** On a FAT volume an entry's position identifies it: no two entries share one. */
  ghost predicate UniquePositions(d: Directory)
  {
    DistinctPositions(d.entries)
  }

  ghost predicate DistinctPositions(es: seq<Entry>)
  {
    forall i, j :: 0 <= i < j < |es| ==> es[i].dirIndex != es[j].dirIndex
  }

  /**
    The name `getName(buf, size)` leaves in a buffer of `size` bytes: the
    longest prefix of the entry's name that still leaves room for the NUL.
   */
  function GetName(name: CStr, size: nat): (t: CStr)
    requires size >= 1
    ensures |t| < size
    ensures t <= name
    ensures |name| < size <==> t == name
    ensures |name| >= size ==> |t| == size - 1
  {
    if |name| < size then name else name[..size - 1]
  }

  /**
    `getName(buf, |buf|)` at byte level: the buffer then holds the name
    (truncated as `GetName` says) as a C string; the bytes past its NUL keep
    their previous values.
   */
  function GetNameInto(buf: seq<char>, name: CStr): (r: seq<char>)
    requires |buf| >= 1
    ensures |r| == |buf|
    ensures HoldsCStr(r, 0, |buf|, GetName(name, |buf|))
    ensures forall k :: |GetName(name, |buf|)| < k < |buf| ==> r[k] == buf[k]
  {
    var t := GetName(name, |buf|);
    t + ['\0'] + buf[|t| + 1..]
  }

  /** The first entry of `es` at position `pos`, if any. */
  function Find(es: seq<Entry>, pos: u16): (r: Option<Entry>)
    ensures r.Some? ==> r.value in es && r.value.dirIndex == pos
    ensures r.None? <==> forall i :: 0 <= i < |es| ==> es[i].dirIndex != pos
  {
    if |es| == 0 then None
    else if es[0].dirIndex == pos then Some(es[0])
    else Find(es[1..], pos)
  }

  /**
    `open(dir, pos)`: reopening the entry at a stored position. `None` is a
    failed open: the directory is not open, or no entry sits at `pos` any
    more (it was removed since the scan).
   */
  function Open(d: Directory, pos: u16): (r: Option<Entry>)
    ensures r.Some? ==> d.isOpen && r.value in d.entries && r.value.dirIndex == pos
    ensures r.None? <==> !d.isOpen || forall i :: 0 <= i < |d.entries| ==> d.entries[i].dirIndex != pos
  {
    if d.isOpen then Find(d.entries, pos) else None
  }

  /** The directory after the entry at position `pos` has been removed from the card. */
  function Remove(d: Directory, pos: u16): (r: Directory)
    ensures r.isOpen == d.isOpen
    ensures forall e :: e in r.entries <==> e in d.entries && e.dirIndex != pos
    ensures |r.entries| <= |d.entries|
  {
    Directory(d.isOpen, Without(d.entries, pos))
  }

  function Without(es: seq<Entry>, pos: u16): (r: seq<Entry>)
    ensures forall e :: e in r <==> e in es && e.dirIndex != pos
    ensures |r| <= |es|
  {
    if |es| == 0 then []
    else (if es[0].dirIndex == pos then [] else [es[0]]) + Without(es[1..], pos)
  }

  /** In a directory whose positions are unique, reopening an entry's position yields that entry. */
  lemma {:induction false} OpenFindsEntry(d: Directory, i: nat)
    requires d.isOpen && UniquePositions(d)
    requires i < |d.entries|
    ensures Open(d, d.entries[i].dirIndex) == Some(d.entries[i])
  {
    FindFirst(d.entries, i);
  }

  lemma {:induction false} FindFirst(es: seq<Entry>, i: nat)
    requires DistinctPositions(es)
    requires i < |es|
    ensures Find(es, es[i].dirIndex) == Some(es[i])
  {
    if i > 0 {
      assert es[0].dirIndex != es[i].dirIndex;
      assert es[1..][i - 1] == es[i];
      FindFirst(es[1..], i - 1);
    }
  }

  /**
    Removing one entry makes exactly that position fail to reopen; every
    other position reopens to what it did before.
   */
  lemma {:induction false} RemoveOnlyAffectsItsPosition(d: Directory, pos: u16, q: u16)
    ensures Open(Remove(d, pos), pos).None?
    ensures q != pos ==> Open(Remove(d, pos), q) == Open(d, q)
  {
    if d.isOpen {
      FindWithout(d.entries, pos, q);
    }
  }

  lemma {:induction false} FindWithout(es: seq<Entry>, pos: u16, q: u16)
    ensures Find(Without(es, pos), pos).None?
    ensures q != pos ==> Find(Without(es, pos), q) == Find(es, q)
  {
    if |es| > 0 {
      FindWithout(es[1..], pos, q);
      var rest := Without(es[1..], pos);
      if es[0].dirIndex != pos {
        assert Without(es, pos) == [es[0]] + rest;
        assert ([es[0]] + rest)[1..] == rest;
      } else {
        assert Without(es, pos) == rest;
      }
    }
  }
}

=== FILE: options.dfy ===
/** The optional value returned by an operation that can fail without an error code. */
module Options {

  datatype Option<+T> = None | Some(value: T)
}

=== FILE: scenario.dfy ===
/**
  A worked example: an index of capacity 3 over a directory holding
  `a.txt, b.jpg, c.txt, d.txt, e.txt`, scanned for ".txt", and three windows
  over it.
 */
module Scenario {
  import opened CTypes
  import opened FatFile
  import opened SdExplore
  import opened AroundCurrent

  const FileA: Entry := Entry("a.txt", true, false, 1)
  const FileB: Entry := Entry("b.jpg", true, false, 2)
  const FileC: Entry := Entry("c.txt", true, false, 3)
  const FileD: Entry := Entry("d.txt", true, false, 4)
  const FileE: Entry := Entry("e.txt", true, false, 5)

  const Card: Directory := Directory(true, [FileA, FileB, FileC, FileD, FileE])

  /** A file whose name is one letter followed by ".txt" passes the filter. */
  lemma TxtPasses(c: NonNul, p: u16)
    ensures Indexed(Entry([c] + ".txt", true, false, p), ".txt", 50)
  {
    assert ([c] + ".txt")[1..] == ".txt";
  }

  lemma FilterKeepsA()
    ensures Indexed(FileA, ".txt", 50)
  {
    TxtPasses('a', 1);
    assert FileA.name == ['a'] + ".txt";
  }

  lemma FilterDropsB()
    ensures !Indexed(FileB, ".txt", 50)
  {
    assert "b.jpg"[1..][1] == 'j';
  }

  lemma FilterKeepsC()
    ensures Indexed(FileC, ".txt", 50)
  {
    TxtPasses('c', 3);
    assert FileC.name == ['c'] + ".txt";
  }

  lemma FilterKeepsD()
    ensures Indexed(FileD, ".txt", 50)
  {
    TxtPasses('d', 4);
    assert FileD.name == ['d'] + ".txt";
  }

  lemma FilterKeepsE()
    ensures Indexed(FileE, ".txt", 50)
  {
    TxtPasses('e', 5);
    assert FileE.name == ['e'] + ".txt";
  }

  /** Without a capacity, the filter keeps every file but b.jpg, in directory order. */
  lemma ExampleMatches()
    ensures IndexedEntries(Card.entries, ".txt", 50) == [FileA, FileC, FileD, FileE]
  {
    FilterKeepsE();
    FilterStep(FileE, []);
    FilterKeepsD();
    FilterStep(FileD, [FileE]);
    FilterKeepsC();
    FilterStep(FileC, [FileD, FileE]);
    FilterDropsB();
    FilterStep(FileB, [FileC, FileD, FileE]);
    FilterKeepsA();
    FilterStep(FileA, [FileB, FileC, FileD, FileE]);
  }

  /** One step of the filter over the example's `.txt` extension and 50-byte buffer. */
  lemma FilterStep(e: Entry, rest: seq<Entry>)
    ensures IndexedEntries([e] + rest, ".txt", 50)
         == (if Indexed(e, ".txt", 50) then [e] else []) + IndexedEntries(rest, ".txt", 50)
  {
    assert ([e] + rest)[1..] == rest;
  }

  /** The index holding the positions of a.txt, c.txt and d.txt. */
  const ExampleIndex: Explorer := Explorer(3, 50, [1, 3, 4])

  /** b.jpg fails the filter, e.txt is cut off by the capacity: the index holds a, c and d. */
  lemma ScanExample()
    ensures ScanFiles(Create(3), Card, ".txt") == (ExampleIndex, 3)
  {
    ExampleMatches();
    var taken := Take([FileA, FileC, FileD, FileE], 3);
    assert taken == [FileA, FileC, FileD];
    var ps := PositionsOf(taken);
    assert ps == [1, 3, 4];
  }

  lemma CardPositionsUnique()
    ensures UniquePositions(Card)
  {
    var es := Card.entries;
    assert forall i :: 0 <= i < |es| ==> es[i].dirIndex == i + 1;
  }

  /** Each place of the example index reads back as its file's name. */
  lemma ExampleRowA()
    ensures RowName(ExampleIndex, Card, 0, 50) == "a.txt"
  {
    CardPositionsUnique();
    OpenFindsEntry(Card, 0);
  }

  lemma ExampleRowC()
    ensures RowName(ExampleIndex, Card, 1, 50) == "c.txt"
  {
    CardPositionsUnique();
    OpenFindsEntry(Card, 2);
  }

  lemma ExampleRowD()
    ensures RowName(ExampleIndex, Card, 2, 50) == "d.txt"
  {
    CardPositionsUnique();
    OpenFindsEntry(Card, 3);
  }

  /** An index of three places reading back as a.txt, c.txt and d.txt. */
  ghost predicate ReadsACD(ex: Explorer, d: Directory)
  {
    ex.LoadedFiles() == 3
    && RowName(ex, d, 0, 50) == "a.txt" && RowName(ex, d, 1, 50) == "c.txt" && RowName(ex, d, 2, 50) == "d.txt"
  }

  lemma NarrowWindow(ex: Explorer, d: Directory)
    requires ReadsACD(ex, d)
    ensures Window(ex, d, 1, 1, 50) == ["a.txt", "c.txt", "d.txt"]
  {
    var w := Window(ex, d, 1, 1, 50);
    assert |w| == Rows(1) == 3;
    assert w[0] == RowName(ex, d, 0, 50) == "a.txt";
    assert w[1] == RowName(ex, d, 1, 50) == "c.txt";
    assert w[2] == RowName(ex, d, 2, 50) == "d.txt";
    ThreeRows(w, "a.txt", "c.txt", "d.txt");
  }

  /** Sequence extensionality for the short windows below. */
  lemma ThreeRows(w: seq<CStr>, r0: CStr, r1: CStr, r2: CStr)
    requires |w| == 3 && w[0] == r0 && w[1] == r1 && w[2] == r2
    ensures w == [r0, r1, r2]
  {
  }

  lemma FiveRows(w: seq<CStr>, r0: CStr, r1: CStr, r2: CStr, r3: CStr, r4: CStr)
    requires |w| == 5 && w[0] == r0 && w[1] == r1 && w[2] == r2 && w[3] == r3 && w[4] == r4
    ensures w == [r0, r1, r2, r3, r4]
  {
  }

  lemma WindowAtStart(ex: Explorer, d: Directory)
    requires ReadsACD(ex, d)
    ensures Window(ex, d, 0, 2, 50) == ["", "", "a.txt", "c.txt", "d.txt"]
  {
    var w := Window(ex, d, 0, 2, 50);
    assert |w| == Rows(2) == 5;
    assert w[0] == RowName(ex, d, -2, 50) == "";
    assert w[1] == RowName(ex, d, -1, 50) == "";
    assert w[2] == RowName(ex, d, 0, 50) == "a.txt";
    assert w[3] == RowName(ex, d, 1, 50) == "c.txt";
    assert w[4] == RowName(ex, d, 2, 50) == "d.txt";
    FiveRows(w, "", "", "a.txt", "c.txt", "d.txt");
  }

  lemma WideWindow(ex: Explorer, d: Directory)
    requires ReadsACD(ex, d)
    ensures Window(ex, d, 1, 2, 50) == ["", "a.txt", "c.txt", "d.txt", ""]
  {
    var w := Window(ex, d, 1, 2, 50);
    assert |w| == Rows(2) == 5;
    assert w[0] == RowName(ex, d, -1, 50) == "";
    assert w[1] == RowName(ex, d, 0, 50) == "a.txt";
    assert w[2] == RowName(ex, d, 1, 50) == "c.txt";
    assert w[3] == RowName(ex, d, 2, 50) == "d.txt";
    assert w[4] == RowName(ex, d, 3, 50) == "";
    FiveRows(w, "", "a.txt", "c.txt", "d.txt", "");
  }

  /**
    A window of radius 1 around index 1 shows the whole example index. One of
    radius 2 around index 0 starts with two empty rows (logical indices -2
    and -1); around index 1 it has one empty row at each edge.
   */
  lemma WindowExamples()
    ensures Window(ExampleIndex, Card, 1, 1, 50) == ["a.txt", "c.txt", "d.txt"]
    ensures Window(ExampleIndex, Card, 0, 2, 50) == ["", "", "a.txt", "c.txt", "d.txt"]
    ensures Window(ExampleIndex, Card, 1, 2, 50) == ["", "a.txt", "c.txt", "d.txt", ""]
  {
    ExampleRowA();
    ExampleRowC();
    ExampleRowD();
    var ex, d := ExampleIndex, Card;
    assert ReadsACD(ex, d);
    NarrowWindow(ex, d);
    WindowAtStart(ex, d);
    WideWindow(ex, d);
  }
}

=== FILE: sd_explore.dfy ===
/**
  The `SdExplore` class: a fixed-capacity index of the positions of the
  files in the working directory whose names end with a given suffix, and
  the lookup of a file's name by its place in that index.

  A C string is modelled by its content (`CStr`); the working directory
  and the card are the `Directory` value passed to each operation, so a
  directory that changed between two calls is simply a different value.
 */
module SdExplore {
  import opened CTypes
  import opened Options
  import opened FatFile

  /** Default capacity of the index (`SDEXPLORE_LOAD_MAX_FILES`). */
  const LoadMaxFiles: u16 := 50

  /** Default size of a file-name buffer, terminator included (`SDEXPLORE_MAX_FILES_NAME`). */
  const MaxFilesName: u16 := 50

  /**
    The explorer's state: the capacity of the index, the size of the name
    buffer the scan and the lookup read names into, and the positions
    (`dirIndex`) indexed by the last scan. `files` holds exactly the valid
    prefix of the C array, so `loadedFiles` is its length.
   */
  datatype Explorer = Explorer(maxFiles: u16, maxFileName: u16, files: seq<u16>)
  {
    function LoadedFiles(): nat
    {
      |files|
    }

    /**
      The index never holds more positions than its capacity. The constructor
      and the scan establish it; the lookups are defined for any explorer
      and do not rely on it.
     */
    ghost predicate Valid()
    {
      |files| <= maxFiles
    }
  }

  /** The constructor: both capacities may be overridden; nothing is indexed yet. */
  function Create(maxFiles: u16 := LoadMaxFiles, maxFileName: u16 := MaxFilesName): (ex: Explorer)
    ensures ex.Valid()
    ensures ex.LoadedFiles() == 0
    ensures ex.maxFiles == maxFiles && ex.maxFileName == maxFileName
  {
    Explorer(maxFiles, maxFileName, [])
  }

  /** An explorer built without arguments indexes up to 50 files with 50-byte names. */
  lemma DefaultCapacities()
    ensures Create().maxFiles == 50 && Create().maxFileName == 50
    ensures Create(10).maxFiles == 10 && Create(10).maxFileName == 50
  {
  }

  // ---------------------------------------------------------------------------
  // fileExtensionIs

  /** `fileExtensionIs(name, ext)`: `name` ends with `ext`, compared byte for byte. */
  function FileExtensionIs(name: CStr, ext: CStr): (b: bool)
    ensures b ==> |ext| <= |name|
  {
    |name| >= |ext| && name[|name| - |ext|..] == ext
  }

  /**
    The suffix test agrees with the textbook definition: some tail of the
    name is the extension. In particular the empty extension matches every
    name, and characters differing only in case do not match.
   */
  lemma FileExtensionIsSuffix(name: CStr, ext: CStr)
    ensures FileExtensionIs(name, ext) <==> exists k :: 0 <= k <= |name| && name[k..] == ext
    ensures FileExtensionIs(name, [])
  {
    if exists k :: 0 <= k <= |name| && name[k..] == ext {
      var k :| 0 <= k <= |name| && name[k..] == ext;
      assert k == |name| - |ext|;
    }
  }

  /**
    Examples of "any ending substring": the extension need not start with a
    dot, letters are compared as they are, and an extension longer than the
    name never matches.
   */
  lemma FileExtensionExamples()
    ensures !FileExtensionIs("a.TXT", ".txt")
    ensures FileExtensionIs("report.log", "log")
    ensures !FileExtensionIs("log", "report.log")
    ensures FileExtensionIs("a.txt", "")
  {
    assert "a.TXT"[1..] != ".txt" by {
      assert "a.TXT"[1..][1] == 'T';
    }
    assert "report.log"[7..] == "log";
  }

  /**
    `fileExtensionIs` as written: both lengths are stored in `uint8_t`, so
    they are taken modulo 256 before the comparison of the tail starting at
    `name_len - ext_len` with `ext`.
   */
  function FileExtensionIsAsWritten(name: CStr, ext: CStr): (b: bool)
    ensures b ==> FileExtensionIs(name, ext)
    ensures |name| < 0x100 ==> (b <==> FileExtensionIs(name, ext))
  {
    var nameLen := |name| % 0x100;
    var extLen := |ext| % 0x100;
    nameLen >= extLen && name[nameLen - extLen..] == ext
  }

  /** A 260-byte name ending in ".txt" is rejected by the test as written, though it ends with ".txt". */
  lemma FileExtensionWrapCounterexample()
    ensures var name: CStr := seq(0x100, _ => 'a') + ".txt";
            FileExtensionIs(name, ".txt") && !FileExtensionIsAsWritten(name, ".txt")
  {
    var name: CStr := seq(0x100, _ => 'a') + ".txt";
    assert name[0] == 'a';
    assert name[|name| - 4..] == ".txt";
    assert name[0..] != ".txt";
  }

  // ---------------------------------------------------------------------------
  // scanFiles

  /**
    Whether the scan indexes an entry: a regular, non-hidden file whose name,
    as read into the scan's `nameSize`-byte buffer, ends with `ext`.
   */
  predicate Indexed(e: Entry, ext: CStr, nameSize: u16): (b: bool)
    requires nameSize >= 1
    ensures b ==> e.isFile && !e.isHidden
    ensures |ext| >= nameSize ==> !b
    ensures |e.name| < nameSize ==> (b <==> e.isFile && !e.isHidden && FileExtensionIs(e.name, ext))
  {
    e.isFile && !e.isHidden && FileExtensionIs(GetName(e.name, nameSize), ext)
  }

  /** Every entry the scan would index if it had no capacity, in directory order. */
  function IndexedEntries(es: seq<Entry>, ext: CStr, nameSize: u16): (r: seq<Entry>)
    requires nameSize >= 1
    ensures |r| <= |es|
  {
    if |es| == 0 then []
    else (if Indexed(es[0], ext, nameSize) then [es[0]] else []) + IndexedEntries(es[1..], ext, nameSize)
  }

  /** The filter keeps exactly the qualifying entries of the directory. */
  lemma {:induction false} IndexedEntriesMembers(es: seq<Entry>, ext: CStr, nameSize: u16)
    requires nameSize >= 1
    ensures forall e :: e in IndexedEntries(es, ext, nameSize) <==> e in es && Indexed(e, ext, nameSize)
  {
    if |es| > 0 {
      IndexedEntriesMembers(es[1..], ext, nameSize);
      assert es == [es[0]] + es[1..];
    }
  }

  /** The positions of a sequence of entries. */
  function PositionsOf(es: seq<Entry>): (ps: seq<u16>)
    ensures |ps| == |es|
    ensures forall i :: 0 <= i < |es| ==> ps[i] == es[i].dirIndex
  {
    seq(|es|, i requires 0 <= i < |es| => es[i].dirIndex)
  }

  function Min(a: nat, b: nat): nat
  {
    if a <= b then a else b
  }

  /** The first `n` elements of `s`, or all of `s` when it is shorter. */
  function Take<T>(s: seq<T>, n: nat): (r: seq<T>)
    ensures |r| == Min(|s|, n)
    ensures r <= s
  {
    s[..Min(|s|, n)]
  }

  /**
    The scan loop: each entry `openNext` yields is indexed (its position
    appended to `files`) when it qualifies, and the loop ends when the
    directory is exhausted or the index holds `maxFiles` positions.
   */
  function ScanLoop(es: seq<Entry>, ext: CStr, maxFiles: u16, nameSize: u16, files: seq<u16>): (r: seq<u16>)
    requires nameSize >= 1
    requires |files| <= maxFiles
    ensures files <= r
    ensures |r| <= maxFiles
    decreases |es|
  {
    if |es| == 0 || |files| >= maxFiles then files
    else
      var candid := es[0];
      if Indexed(candid, ext, nameSize) then ScanLoop(es[1..], ext, maxFiles, nameSize, files + [candid.dirIndex])
      else ScanLoop(es[1..], ext, maxFiles, nameSize, files)
  }

  /**
    The loop appends the positions of the first qualifying entries, as many
    as the remaining capacity allows, in directory order.
   */
  lemma {:induction false} ScanLoopTakesFirstMatches(es: seq<Entry>, ext: CStr, maxFiles: u16, nameSize: u16, files: seq<u16>)
    requires nameSize >= 1
    requires |files| <= maxFiles
    ensures ScanLoop(es, ext, maxFiles, nameSize, files)
            == files + PositionsOf(Take(IndexedEntries(es, ext, nameSize), maxFiles - |files|))
    decreases |es|
  {
    var all := IndexedEntries(es, ext, nameSize);
    if |es| == 0 || |files| >= maxFiles {
      assert Take(all, maxFiles - |files|) == [];
    } else {
      var rest := IndexedEntries(es[1..], ext, nameSize);
      if Indexed(es[0], ext, nameSize) {
        ScanLoopTakesFirstMatches(es[1..], ext, maxFiles, nameSize, files + [es[0].dirIndex]);
        assert all == [es[0]] + rest;
        TakeFirstPosition(es[0], rest, maxFiles - |files|);
      } else {
        ScanLoopTakesFirstMatches(es[1..], ext, maxFiles, nameSize, files);
        assert all == rest;
      }
    }
  }

  /** Taking `n > 0` positions from a sequence headed by `e` takes `e`'s position, then `n - 1` from the rest. */
  lemma TakeFirstPosition(e: Entry, rest: seq<Entry>, n: nat)
    requires n > 0
    ensures PositionsOf(Take([e] + rest, n)) == [e.dirIndex] + PositionsOf(Take(rest, n - 1))
  {
    var taken := Take(rest, n - 1);
    assert Take([e] + rest, n) == [e] + taken;
    assert PositionsOf([e] + taken) == [e.dirIndex] + PositionsOf(taken);
  }

  /**
    `scanFiles(ext)`: resets the index, then fills it from the working
    directory. Returns the new `loadedFiles` with the new state. When the
    directory is not open nothing is indexed.
   */
  function ScanFiles(ex: Explorer, d: Directory, ext: CStr): (r: (Explorer, u16))
    requires d.isOpen ==> ex.maxFileName >= 1
    ensures r.0.Valid()
    ensures r.1 == r.0.LoadedFiles() <= ex.maxFiles
    ensures r.0.maxFiles == ex.maxFiles && r.0.maxFileName == ex.maxFileName
    ensures !d.isOpen ==> r.1 == 0
    ensures d.isOpen ==>
              r.0.files == PositionsOf(Take(IndexedEntries(d.entries, ext, ex.maxFileName), ex.maxFiles))
    ensures d.isOpen ==> r.1 == Min(|IndexedEntries(d.entries, ext, ex.maxFileName)|, ex.maxFiles)
  {
    var files :=
      if d.isOpen then
        ScanLoopTakesFirstMatches(d.entries, ext, ex.maxFiles, ex.maxFileName, []);
        ScanLoop(d.entries, ext, ex.maxFiles, ex.maxFileName, [])
      else [];
    (Explorer(ex.maxFiles, ex.maxFileName, files), |files|)
  }

  /**
    The scan's result depends only on the directory, the extension and the
    capacities, never on what was indexed before; so scanning an unchanged
    directory again changes nothing.
   */
  lemma RescanIsIdempotent(ex: Explorer, other: Explorer, d: Directory, ext: CStr)
    requires ex.maxFileName >= 1
    requires other.maxFiles == ex.maxFiles && other.maxFileName == ex.maxFileName
    ensures ScanFiles(other, d, ext) == ScanFiles(ex, d, ext)
    ensures ScanFiles(ScanFiles(ex, d, ext).0, d, ext) == ScanFiles(ex, d, ext)
  {
  }

  /** The regular, non-hidden files of a directory, in order. */
  function VisibleFiles(es: seq<Entry>): (r: seq<Entry>)
    ensures forall e :: e in r <==> e in es && e.isFile && !e.isHidden
  {
    if |es| == 0 then []
    else (if es[0].isFile && !es[0].isHidden then [es[0]] else []) + VisibleFiles(es[1..])
  }

  /** With an empty extension every regular, non-hidden file qualifies, in directory order. */
  lemma {:induction false} EmptyExtensionIndexesAllFiles(es: seq<Entry>, nameSize: u16)
    requires nameSize >= 1
    ensures IndexedEntries(es, [], nameSize) == VisibleFiles(es)
  {
    if |es| > 0 {
      FileExtensionIsSuffix(GetName(es[0].name, nameSize), []);
      EmptyExtensionIndexesAllFiles(es[1..], nameSize);
    }
  }

  /** Filtering keeps positions pairwise distinct. */
  lemma {:induction false} IndexedEntriesKeepUniquePositions(es: seq<Entry>, ext: CStr, nameSize: u16)
    requires nameSize >= 1
    requires DistinctPositions(es)
    ensures DistinctPositions(IndexedEntries(es, ext, nameSize))
  {
    if |es| > 0 {
      var rest := IndexedEntries(es[1..], ext, nameSize);
      IndexedEntriesKeepUniquePositions(es[1..], ext, nameSize);
      IndexedEntriesMembers(es[1..], ext, nameSize);
      if Indexed(es[0], ext, nameSize) {
        var r := [es[0]] + rest;
        assert IndexedEntries(es, ext, nameSize) == r;
        forall i, j | 0 <= i < j < |r|
          ensures r[i].dirIndex != r[j].dirIndex
        {
          if i == 0 {
            assert r[j] == rest[j - 1];
            assert r[j] in es[1..];
            var k :| 0 <= k < |es[1..]| && es[1..][k] == r[j];
            assert es[k + 1] == r[j];
          } else {
            assert r[i] == rest[i - 1] && r[j] == rest[j - 1];
            assert DistinctPositions(rest);
          }
        }
      } else {
        assert IndexedEntries(es, ext, nameSize) == rest;
      }
    }
  }

  /** In a directory with unique positions, the scan never stores one position twice. */
  lemma ScanStoresDistinctPositions(ex: Explorer, d: Directory, ext: CStr)
    requires ex.maxFileName >= 1
    requires UniquePositions(d)
    ensures var files := ScanFiles(ex, d, ext).0.files;
            forall i, j :: 0 <= i < j < |files| ==> files[i] != files[j]
  {
    if d.isOpen {
      var all := IndexedEntries(d.entries, ext, ex.maxFileName);
      IndexedEntriesKeepUniquePositions(d.entries, ext, ex.maxFileName);
      var taken := Take(all, ex.maxFiles);
      assert forall i :: 0 <= i < |taken| ==> taken[i] == all[i];
    }
  }

  // ---------------------------------------------------------------------------
  // getFullFileNameByIndex

  /**
    Reopening the file stored at logical index `k` and reading its name into
    a buffer of `size` bytes; a failed open leaves the empty name. Only a
    successful open reads into the buffer, so only then must it hold a byte.
   */
  function Reopen(ex: Explorer, d: Directory, k: nat, size: nat): (name: CStr)
    requires k < ex.LoadedFiles()
    requires Open(d, ex.files[k]).Some? ==> size >= 1
    ensures Open(d, ex.files[k]).None? ==> name == []
    ensures Open(d, ex.files[k]).Some? ==> |name| < size && name == GetName(Open(d, ex.files[k]).value.name, size)
  {
    match Open(d, ex.files[k])
    case Some(candid) => GetName(candid.name, size)
    case None => []
  }

  /**
    `getFullFileNameByIndex(nameBuff, index)`: `index` is a place in this
    explorer's index, not a card position. The result is the C string
    `nameBuff` holds afterwards; an index outside `[0, loadedFiles)` leaves it
    as it was, and a failed reopen leaves it empty.
   */
  function GetFullFileNameByIndex(ex: Explorer, d: Directory, nameBuff: CStr, index: i16): (r: CStr)
    requires 0 <= index < ex.LoadedFiles() && Open(d, ex.files[index]).Some? ==> ex.maxFileName >= 1
    ensures !(0 <= index < ex.LoadedFiles()) ==> r == nameBuff
    ensures 0 <= index < ex.LoadedFiles() && Open(d, ex.files[index]).None? ==> r == []
    ensures 0 <= index < ex.LoadedFiles() && ex.maxFileName >= 1 ==> |r| < ex.maxFileName
  {
    if index < ex.LoadedFiles() && index >= 0 then Reopen(ex, d, index, ex.maxFileName)
    else nameBuff
  }

  /**
    Round trip: after a scan of a directory that has not changed since,
    looking up logical index `i` reads the name of the `i`-th qualifying
    entry, which therefore ends with the extension scanned for, and is not
    empty when the entry's name is not and the buffer has room for a
    character.
   */
  lemma ResolveAfterScan(ex: Explorer, d: Directory, ext: CStr, nameBuff: CStr, i: i16)
    requires ex.maxFileName >= 1
    requires UniquePositions(d)
    requires 0 <= i < ScanFiles(ex, d, ext).1
    ensures var e := IndexedEntries(d.entries, ext, ex.maxFileName)[i];
            var r := GetFullFileNameByIndex(ScanFiles(ex, d, ext).0, d, nameBuff, i);
            && r == GetName(e.name, ex.maxFileName)
            && FileExtensionIs(r, ext)
            && (|e.name| > 0 && ex.maxFileName >= 2 ==> |r| > 0)
  {
    var all := IndexedEntries(d.entries, ext, ex.maxFileName);
    var e := all[i];
    var scanned := ScanFiles(ex, d, ext).0;
    assert scanned.files[i] == e.dirIndex by {
      assert Take(all, ex.maxFiles)[i] == e;
    }
    IndexedEntriesMembers(d.entries, ext, ex.maxFileName);
    assert e in d.entries && Indexed(e, ext, ex.maxFileName);
    var j :| 0 <= j < |d.entries| && d.entries[j] == e;
    OpenFindsEntry(d, j);
    assert GetFullFileNameByIndex(scanned, d, nameBuff, i) == GetName(e.name, ex.maxFileName);
  }

  /**
    If the file at logical index `i` is removed from the card, looking it up
    yields the empty name, and every index holding another position reads
    what it read before.
   */
  lemma ResolveAfterRemoval(ex: Explorer, d: Directory, nameBuff: CStr, i: i16, j: i16)
    requires ex.maxFileName >= 1
    requires 0 <= i < ex.LoadedFiles()
    ensures GetFullFileNameByIndex(ex, Remove(d, ex.files[i]), nameBuff, i) == []
    ensures (0 <= j < ex.LoadedFiles() ==> ex.files[j] != ex.files[i]) ==>
              GetFullFileNameByIndex(ex, Remove(d, ex.files[i]), nameBuff, j)
              == GetFullFileNameByIndex(ex, d, nameBuff, j)
  {
    RemoveOnlyAffectsItsPosition(d, ex.files[i], ex.files[i]);
    if 0 <= j < ex.LoadedFiles() {
      RemoveOnlyAffectsItsPosition(d, ex.files[i], ex.files[j]);
    }
  }
}
